=== FILE: README.md ===
# fetch-attachments, modelled in Dafny

`slack-advanced-exporter fetch-attachments` repackages a Slack export archive.
It copies every entry of the input archive into the output archive. For each
channel-messages file (`<channel>/<day>.json`) it reads the posts and resolves
every file attachment they mention. It adds one entry
`__uploads/<file id>/<file name>` per attachment, filled from an authenticated
download or, when that fails, from a local attachments directory.

This project models the decision layer of that command as pure functions over
strings, sequences and small datatypes:

- `Paths`: the pieces of Go's `strings` and `path/filepath` the command relies
  on (`HasPrefix`, `Split`, `Base`, `Ext`, `Join`), over `seq<char>`, with '/'
  as the separator.
- `Naming`: the characters matched by `[[:space:][:punct:]]`, and the
  derivation of a missing attachment name from the local file's name.
- `Slack`: posts and file descriptors, and how legacy `file_share` posts are
  normalised.
- `LocalAttachments`: `findLocalAttachment` over an explicit directory listing.
- `Entries`: input and output archive entries. An output entry's body records
  where its bytes come from: a verbatim copy, a download, a local file, or
  nothing.
- `Resolver`: descriptor validation, URL choice, the upload path, the
  download-then-local-fallback policy, and the resolution of whole posts.
- `Archive`: the channel-file test and the whole run of `fetchAttachments` as
  the ordered list of entries written. A run either finishes or aborts on a
  channel file whose JSON does not parse.

The world outside the program is passed in as values. `Resolver.Config` holds
the API token, the configured directory, and the directory's listing (None when
it cannot be read). It maps each URL to a `Fetch` outcome: `Served`, `Failed`,
or `Unbuildable` when the request cannot be built. The empty URL always
fails: Go builds the request but cannot execute it without a scheme. It also holds the set of
local paths that cannot be opened. Each input entry carries the result of
decoding its bytes as a JSON list of posts (None when they are malformed).

Notes on what the command does:

- The name pattern `[[:space:][:punct:]]` has no `+`. Each special character
  becomes its own `_`, so `F1-My File!!.png` gives `My_File__.png`, not
  `My_File.png` (`Naming.DeriveNameExample`). `_` is itself punctuation. So
  the stem of a derived name holds no special character other than `_`.
- The directory listing comes from `ioutil.ReadDir`, which sorts entries by
  name. So the prefix match is deterministic: on a sorted listing it picks the
  least matching name (`LocalAttachments.FirstMatchIsLeast`).
- The match is on the bare identifier, not on `<id>-`. Identifier `F1` can
  therefore pick the file of `F10` (`LocalAttachments.PrefixMatchExample`).
- A descriptor with an empty name and no local match is skipped. No name is
  ever taken from the URL (`Resolver.SkippedWithoutLocalMatch`).
- A descriptor with a local match needs no URL. Its download then fails, and
  its entry is filled from the local file (`Resolver.LocalOnlyDescriptor`).
- A derived name can be empty when the local file is named exactly `<id>-`.
  The command still writes the entry, as `__uploads/<id>/`. The zip writer
  makes any entry name ending in '/' a directory entry, and every write of
  bytes into it fails (the failures are logged at lines 216 and 222-225). So
  such an entry, and one whose name from the JSON ends in '/', stays empty
  whatever the download or the local file would give
  (`Resolver.EmptyDerivedName`, `Resolver.UploadPathIsDirectory`).

The Go types of posts and file descriptors are declared elsewhere in the
command; the model's fields follow their use in `cmd/fetch_attachments.go`.

## Model

| member | source | states |
|---|---|---|
| Paths.SplitSpec | cmd/fetch_attachments.go:85 | splitting on '/' gives one more piece than there are separators (one empty piece for ""), no piece holds '/', and joining the pieces gives the name back |
| Paths.SplitJoin | cmd/fetch_attachments.go:85 | splitting undoes joining pieces that hold no separator |
| Paths.Ext | cmd/fetch_attachments.go:151 | the extension is a suffix of the path that is empty or starts with its only '.' and holds no '/' |
| Paths.ExtEmptyIff | cmd/fetch_attachments.go:151 | the extension is empty exactly when the final path element has no '.' |
| Paths.BaseOfJoin | cmd/fetch_attachments.go:145 | the base name of the path built for a directory entry is that entry's name |
| Naming.Sanitize | cmd/fetch_attachments.go:153-154 | each ASCII space or punctuation character becomes '_' on its own, every other character is kept, and the length is unchanged |
| Naming.SanitizeStem | cmd/fetch_attachments.go:151-155 | the stem is sanitized character by character, the extension is kept verbatim as a suffix, and the length is unchanged |
| Naming.DeriveName | cmd/fetch_attachments.go:145-155 | the derived name is the sanitized base name of the local file, after removing at most one leading "<id>-"; it never holds '/' |
| Naming.SanitizeStemKeepsExtension | cmd/fetch_attachments.go:151-155 | a name keeps its extension through sanitizing |
| Naming.SanitizeIdempotent | cmd/fetch_attachments.go:153-154 | replacing special characters twice is replacing them once |
| Naming.SanitizeStemIdempotent | cmd/fetch_attachments.go:151-155 | sanitizing the stem twice is sanitizing it once |
| Naming.DeriveNameFixpoint | cmd/fetch_attachments.go:145-155 | a local file that already carries a derived name (not starting with "<id>-") yields that same name again |
| Naming.DeriveNameOfPrefixed | cmd/fetch_attachments.go:145-155 | the local file "<id>-<stem><ext>", with ext its part from the last '.' on (or nothing when the stem has no '.'), gives the sanitized stem followed by the extension; earlier dots become '_' |
| Naming.DeriveNameExample | cmd/fetch_attachments.go:153-155 | "F1-My File!!.png" gives "My_File__.png": runs of special characters are not collapsed |
| Naming.DeriveNameMultiDot | cmd/fetch_attachments.go:151-155 | "F1-a.tar.gz" gives "a_tar.gz": only the last '.' starts the extension |
| Naming.DeriveNameStripsOnce | cmd/fetch_attachments.go:146-149 | "F1-F1-a.txt" gives "F1_a.txt": only one "<id>-" is removed |
| Slack.Normalize | cmd/fetch_attachments.go:116-126 | a file_share post without file is skipped; with one, its files becomes exactly that one descriptor, whatever it held; nothing else in the post changes; other posts are untouched |
| Slack.NormalizeIdempotent | cmd/fetch_attachments.go:116-126 | normalising a normalised post changes nothing |
| Slack.LegacyShareDescriptors | cmd/fetch_attachments.go:117-136 | a file_share post with a file resolves exactly that descriptor, independent of its files list |
| LocalAttachments.FirstMatch | cmd/fetch_attachments.go:245-246 | the index found is that of an entry starting with the id, with no earlier such entry; none is found only when no entry starts with the id |
| LocalAttachments.FindLocalAttachment | cmd/fetch_attachments.go:235-256 | an error with no directory, with an unreadable listing, or with no match; otherwise the directory joined with the first entry starting with the id, whose base name starts with the id |
| LocalAttachments.FirstMatchIsLeast | cmd/fetch_attachments.go:240-246 | on a listing sorted by name, the chosen entry is the least of the matching names |
| LocalAttachments.PrefixMatchExample | cmd/fetch_attachments.go:246 | identifier "F1" matches the file "F10-a.png" |
| Resolver.Outcome | cmd/fetch_attachments.go:191-200 | the GET for the empty URL always fails, as does one for a URL the network does not serve |
| Resolver.Authorization | cmd/fetch_attachments.go:196-198 | a bearer header carrying the token is sent exactly when a token is configured |
| Resolver.DownloadUrl | cmd/fetch_attachments.go:170-176 | the download URL when set, else the private URL; non-empty exactly when one of the two is |
| Resolver.UploadPath | cmd/fetch_attachments.go:178-179 | the upload entry lies under "__uploads/" and splits into "__uploads", the id and the name |
| Resolver.UploadPathInjective | cmd/fetch_attachments.go:179 | distinct (id, name) pairs without '/' get distinct upload entries |
| Resolver.Retrieve | cmd/fetch_attachments.go:191-225 | a served GET fills the entry from that URL with the token header; a failed one falls back to the local file of a fresh lookup when it opens; otherwise the entry stays empty |
| Resolver.ResolveFile | cmd/fetch_attachments.go:136-225 | a descriptor is skipped exactly when it has no local match and lacks an id, a name or both URLs; a non-empty name is kept; an empty one is derived from the local file; a directory entry (a name ending in '/') stays empty; any other entry gets what the download gives: the response body when the GET is served; when it fails, the local file of a fresh lookup if one exists and opens; nothing when the request cannot be built or no such file opens |
| Resolver.ResolveFiles | cmd/fetch_attachments.go:136-186 | there are no more entries than descriptors, and all are uploads |
| Resolver.ResolveFilesMembers | cmd/fetch_attachments.go:136-186 | each entry comes from one of the descriptors, and every descriptor that is not skipped has its entry |
| Resolver.ResolveFilesAppend | cmd/fetch_attachments.go:136 | descriptors are resolved in order: resolving a concatenation concatenates the results |
| Resolver.ResolvePostCases | cmd/fetch_attachments.go:115-136 | a skipped post and a post without files give no entry; a file_share post gives the entries of its one descriptor |
| Resolver.ResolvePostsAreUploads | cmd/fetch_attachments.go:115-229 | every entry a channel file adds is an upload, not a copy |
| Resolver.ResolvePostsMembers | cmd/fetch_attachments.go:115-136 | each entry of a channel file's posts comes from a descriptor of one of the posts, and every such descriptor that is not skipped has its entry |
| Resolver.ResolvePostsAppend | cmd/fetch_attachments.go:115 | posts are processed in order: resolving a concatenation concatenates the results |
| Resolver.EntryIndependentOfDownload | cmd/fetch_attachments.go:179-199 | whether a descriptor gets an entry, and its name, do not depend on the token, the network or local readability |
| Resolver.UploadPathIsDirectory | cmd/fetch_attachments.go:179-182 | an upload entry is a directory entry exactly when its name part is empty or ends in '/' |
| Resolver.EmptyDerivedName | cmd/fetch_attachments.go:144-182 | a local file named exactly "<id>-" gives the entry "__uploads/<id>/", a directory entry with no bytes |
| Resolver.FallbackUsesFirstMatch | cmd/fetch_attachments.go:199-213 | after a failed download the entry holds the local file that the first lookup found, when that file opens and the entry is not a directory entry |
| Resolver.LocalOnlyDescriptor | cmd/fetch_attachments.go:162-213 | a descriptor without URLs but with a local match gets its entry, filled from the matched local file when it opens and the entry is not a directory entry, and empty otherwise |
| Resolver.SkippedWithoutLocalMatch | cmd/fetch_attachments.go:139-167 | without a local match, a descriptor lacking an id, a name or both URLs creates no entry |
| Resolver.SkippedWithoutLocalDir | cmd/fetch_attachments.go:139-167 | with no local directory (a special case of having no local match), a descriptor lacking an id, a name or both URLs creates no entry |
| Archive.ChannelFileShape | cmd/fetch_attachments.go:85-86 | a name is a channel file exactly when it has one '/', the part before it does not start with "__", and the part after it ends with ".json" |
| Archive.TwoPieces | cmd/fetch_attachments.go:85-86 | a name "<a>/<b>" with '/'-free parts is a channel file exactly when a does not start with "__" and b ends with ".json" |
| Archive.ChannelFileExample | cmd/fetch_attachments.go:85-86 | "general/2021-01-01.json" is a channel file |
| Archive.ReservedDirectoryExample | cmd/fetch_attachments.go:86 | "__uploads/x.json" is not a channel file |
| Archive.NestedPathExample | cmd/fetch_attachments.go:85-86 | "general/2021/01.json" is not a channel file (three pieces) |
| Archive.UploadIsNotChannelFile | cmd/fetch_attachments.go:179 | an upload entry is never taken for a channel file, whatever its identifier and name hold (including '/') |
| Archive.EntryOutput | cmd/fetch_attachments.go:74-93 | an entry first writes its verbatim copy; any other entry writes nothing more, and a channel file then writes exactly the uploads of its posts, all under "__uploads/" |
| Archive.FinishedIffAllParsable | cmd/fetch_attachments.go:86-92 | the run finishes exactly when every channel file's JSON parses |
| Archive.FinishedCopiesInput | cmd/fetch_attachments.go:57-82 | in a finished run the copied entries are the input entries, in order and byte for byte |
| Archive.OthersAreUploads | cmd/fetch_attachments.go:57-93 | every output entry that is not a copy lies under "__uploads/" |
| Archive.UploadsComeFromDescriptors | cmd/fetch_attachments.go:57-93 | every output entry that is not a copy is the entry of a descriptor, not skipped, of a post of a channel file of the input |
| Archive.DescriptorsGetEntries | cmd/fetch_attachments.go:57-93 | in a finished run, every descriptor, not skipped, of a post of a channel file has its entry in the output |
| Archive.FetchAttachmentsAppend | cmd/fetch_attachments.go:57 | entries are processed in order: once a prefix of the input finishes, the rest continues its output |
| Archive.AbortsAtFirstUnparsable | cmd/fetch_attachments.go:86-92 | the run aborts on the first unparsable channel file, after writing everything before it plus that file's copy, and nothing more |
| Archive.AbortedCopies | cmd/fetch_attachments.go:57-92 | an aborted run has copied exactly the input entries up to and including the culprit |

## Left out

- Zip reading and writing, and `ioutil.ReadAll`: byte I/O. Opening, reading and creating entries always succeed in the model. The `os.Exit` on an open or create failure (lines 61-65, 74-78) and the logged read/write errors (lines 68-71, 79-82) are not modelled.
- Creating an upload entry always succeeds. The logged `continue` at lines 182-186 is not modelled.
- The HTTP exchange: network I/O. A `Fetch` outcome per URL stands in for it, and the bytes of a response are not modelled.
- A failed `io.Copy` of the response body into the entry (lines 222-225) leaves a short entry: byte I/O, not modelled.
- A local file that opens but fails to copy (lines 209-216) is treated like one that does not open: the entry counts as empty, though it may hold a partial copy.
- `json.Unmarshal`: each input entry carries its decoded posts. A JSON `null` inside a `files` array, which the command would dereference and crash on, is not representable.
- Paths.JoinPath: `filepath.Join` also cleans the path (collapsing "//", "." and ".."); the model joins with one '/'. The joined path is used only to name the local file to open (it is what `LocalCopy` records and `Config.unopenable` is keyed by) and to take its base name. The two forms name the same file (barring ".." through a symbolic link) and have the same base name, but the recorded path string can differ from Go's, e.g. "/att//F1-a" for "/att/F1-a".
- The order of `ioutil.ReadDir`'s result is an input. Sortedness is assumed only by `LocalAttachments.FirstMatchIsLeast`. Go compares strings byte-wise in UTF-8; the model compares by character code, which orders valid UTF-8 the same way.
- The directory listing and the readability of the directory are the same for the lookup at line 142 and the fallback lookup at line 202. The command reads the directory again; a listing that changes between the two reads is not modelled, and `Resolver.FallbackUsesFirstMatch` relies on it not changing.
- Strings as bytes: Go strings are byte sequences, while the model's strings are sequences of Unicode characters. Entry names, identifiers and local file names that are not valid UTF-8 cannot be represented. Every operation modelled here tests only ASCII characters, so on valid UTF-8 the results are the same.
- The HTTP client built at line 133 has no timeout, so the GET at line 199 can block forever and the run never end. In the model every `Fetch` outcome is returned.
- Flag parsing, logging, printing, and closing the archive (lines 25-34, 96-100): CLI plumbing. A close error is printed at line 99 but not returned, since the function returns nil.
- `defer` placement inside the descriptor loop: resource lifetime only.

=== FILE: archive.dfy ===
/**
 The whole run of `fetchAttachments` (cmd/fetch_attachments.go, lines 36-103):
 every input entry is copied, and each channel file is followed by the upload
 entries of its posts.
 */
module Archive {
  import opened Wrappers
  import opened Paths
  import opened Slack
  import opened Entries
  import opened Resolver

  /**
   A channel-messages file: the name splits on '/' into exactly two pieces,
   the first not starting with "__" and the second ending in ".json".
   */
  predicate IsChannelFile(name: string)
  {
    var parts := Split(name, '/');
    |parts| == 2 && !HasPrefix(parts[0], "__") && HasSuffix(parts[1], ".json")
  }

  /** The same shape stated by the position of the one '/' in the name. */
  ghost predicate HasChannelShape(name: string)
  {
    exists i :: 0 <= i < |name| && name[i] == '/' && '/' !in name[..i] && '/' !in name[i + 1..]
                && !HasPrefix(name[..i], "__") && HasSuffix(name[i + 1..], ".json")
  }

  lemma ChannelFileHasShape(name: string)
    requires IsChannelFile(name)
    ensures HasChannelShape(name)
  {
    var parts := Split(name, '/');
    SplitSpec(name, '/');
    var i := |parts[0]|;
    assert parts[1..] == [parts[1]];
    assert Join(parts, '/') == parts[0] + "/" + Join(parts[1..], '/');
    assert name == parts[0] + "/" + parts[1];
    assert name[..i] == parts[0] && name[i + 1..] == parts[1];
    assert name[i] == '/';
  }

  lemma ShapeIsChannelFile(name: string, i: int)
    requires 0 <= i < |name| && name[i] == '/' && '/' !in name[..i] && '/' !in name[i + 1..]
    requires !HasPrefix(name[..i], "__") && HasSuffix(name[i + 1..], ".json")
    ensures IsChannelFile(name)
  {
    var a, b := name[..i], name[i + 1..];
    assert name == a + "/" + b;
    assert [a, b][1..] == [b];
    assert Join([a, b], '/') == name;
    SplitJoin([a, b], '/');
  }

  /** Splitting on '/' gives two pieces exactly when the name has one '/', placed as described. */
  lemma ChannelFileShape(name: string)
    ensures IsChannelFile(name) <==> HasChannelShape(name)
  {
    if IsChannelFile(name) {
      ChannelFileHasShape(name);
    }
    if HasChannelShape(name) {
      var i :| 0 <= i < |name| && name[i] == '/' && '/' !in name[..i] && '/' !in name[i + 1..]
                && !HasPrefix(name[..i], "__") && HasSuffix(name[i + 1..], ".json");
      ShapeIsChannelFile(name, i);
    }
  }

  /** The name of a two-piece path is judged on its two pieces. */
  lemma TwoPieces(a: string, b: string)
    requires '/' !in a && '/' !in b
    ensures IsChannelFile(a + "/" + b) <==> !HasPrefix(a, "__") && HasSuffix(b, ".json")
  {
    assert [a, b][1..] == [b];
    assert Join([a, b], '/') == a + "/" + b;
    SplitJoin([a, b], '/');
  }

  /** Channel files are "<channel>/<name>.json" outside the reserved "__" directories. */
  lemma ChannelFileExample(name: string)
    requires name == "general/2021-01-01.json"
    ensures IsChannelFile(name)
  {
    var a: string, b: string := "general", "2021-01-01.json";
    assert name == a + "/" + b;
    assert !HasPrefix(a, "__") && HasSuffix(b, ".json") by {
      assert a[..2] == "ge";
      assert b[|b| - 5..] == ".json";
    }
    TwoPieces(a, b);
  }

  lemma ReservedDirectoryExample(name: string)
    requires name == "__uploads/x.json"
    ensures !IsChannelFile(name)
  {
    var a: string, b: string := "__uploads", "x.json";
    assert name == a + "/" + b;
    TwoPieces(a, b);
    assert a[..2] == "__";
  }

  lemma NestedPathExample(name: string)
    requires name == "general/2021/01.json"
    ensures !IsChannelFile(name)
  {
    var parts: seq<string> := ["general", "2021", "01.json"];
    assert parts[1..] == ["2021", "01.json"];
    assert name == Join(parts, '/');
    SplitJoin(parts, '/');
  }

  /**
   Upload entries are never channel files, whatever their identifier and
   name hold: the first piece of the name is the reserved "__uploads".
   */
  lemma UploadIsNotChannelFile(id: string, name: string)
    ensures !IsChannelFile(UploadPath(id, name))
  {
    var path := UploadPath(id, name);
    assert path == UploadsDir + ['/'] + (id + "/" + name);
    SplitAfterPiece(UploadsDir, '/', id + "/" + name);
    assert Split(path, '/')[0] == UploadsDir;
    assert UploadsDir[..2] == "__";
  }

  /** A channel file whose bytes are not a JSON list of posts: the run aborts on it. */
  predicate Unparsable(e: InEntry)
  {
    IsChannelFile(e.name) && e.posts.None?
  }

  /**
   How a run ends: every entry processed, or aborted on the named channel
   file, with the entries written until then (the archive is then left
   unfinished).
   */
  datatype Run = Finished(out: seq<OutEntry>) | Aborted(out: seq<OutEntry>, culprit: string)

  function Prepend(prefix: seq<OutEntry>, run: Run): (r: Run)
    ensures r.Finished? == run.Finished? && r.out == prefix + run.out
    ensures r.Aborted? ==> r.culprit == run.culprit
  {
    match run
    case Finished(out) => Finished(prefix + out)
    case Aborted(out, c) => Aborted(prefix + out, c)
  }

  /** The entries one input entry writes: its copy, then the uploads of a channel file's posts. */
  function EntryOutput(cfg: Config, e: InEntry): (r: seq<OutEntry>)
    requires !Unparsable(e)
    ensures |r| >= 1 && r[0] == Copy(e)
    ensures CopiedEntries(r) == [Copy(e)]
    ensures forall x :: x in r[1..] ==> HasPrefix(x.name, UploadsDir + "/") && !x.body.Copied?
    ensures !IsChannelFile(e.name) ==> r == [Copy(e)]
    ensures IsChannelFile(e.name) ==> r[1..] == ResolvePosts(cfg, e.posts.value)
  {
    var posts := if IsChannelFile(e.name) then e.posts.value else [];
    var uploads := ResolvePosts(cfg, posts);
    ResolvePostsAreUploads(cfg, posts);
    var r := [Copy(e)] + uploads;
    assert r[1..] == uploads;
    CopiedEntriesAppend([Copy(e)], uploads);
    r
  }

  /** The run over the input entries, in order; it stops at the first unparsable channel file. */
  function FetchAttachments(cfg: Config, input: seq<InEntry>): Run
  {
    if |input| == 0 then Finished([])
    else if Unparsable(input[0]) then Aborted([Copy(input[0])], input[0].name)
    else Prepend(EntryOutput(cfg, input[0]), FetchAttachments(cfg, input[1..]))
  }

  /** The run finishes exactly when no channel file in the input is unparsable. */
  lemma {:induction false} FinishedIffAllParsable(cfg: Config, input: seq<InEntry>)
    ensures FetchAttachments(cfg, input).Finished? <==> forall k :: 0 <= k < |input| ==> !Unparsable(input[k])
  {
    if |input| > 0 {
      FinishedIffAllParsable(cfg, input[1..]);
      assert forall k :: 1 <= k < |input| ==> input[k] == input[1..][k - 1];
    }
  }

  /** A finished run's copied entries are the input entries, in order and unchanged. */
  lemma {:induction false} FinishedCopiesInput(cfg: Config, input: seq<InEntry>)
    requires FetchAttachments(cfg, input).Finished?
    ensures CopiedEntries(FetchAttachments(cfg, input).out) == Originals(input)
  {
    if |input| > 0 {
      assert !Unparsable(input[0]);
      var out := EntryOutput(cfg, input[0]);
      var rest := FetchAttachments(cfg, input[1..]);
      assert FetchAttachments(cfg, input) == Prepend(out, rest);
      assert rest.Finished?;
      FinishedCopiesInput(cfg, input[1..]);
      CopiedEntriesAppend(out, rest.out);
      assert CopiedEntries(out + rest.out) == [Copy(input[0])] + Originals(input[1..]);
      OriginalsCons(input);
    }
  }

  lemma OriginalsCons(input: seq<InEntry>)
    requires |input| > 0
    ensures Originals(input) == [Copy(input[0])] + Originals(input[1..])
  {
    var a, b := Originals(input), [Copy(input[0])] + Originals(input[1..]);
    assert |a| == |b|;
    forall i | 0 <= i < |a| ensures a[i] == b[i] {
      if i > 0 { assert b[i] == Originals(input[1..])[i - 1]; }
    }
  }

  /** Every output entry that is not a copy is an upload entry. */
  lemma {:induction false} OthersAreUploads(cfg: Config, input: seq<InEntry>)
    ensures forall e :: e in FetchAttachments(cfg, input).out && !e.body.Copied? ==> HasPrefix(e.name, UploadsDir + "/")
  {
    if |input| > 0 && !Unparsable(input[0]) {
      var out := EntryOutput(cfg, input[0]);
      OthersAreUploads(cfg, input[1..]);
      assert forall x :: x in out ==> x == out[0] || x in out[1..];
    }
  }

  /**
   Every output entry that is not a copy is the entry of a descriptor, not
   skipped, of a post of some channel file of the input.
   */
  lemma {:induction false} UploadsComeFromDescriptors(cfg: Config, input: seq<InEntry>)
    ensures forall x :: x in FetchAttachments(cfg, input).out && !x.body.Copied? ==>
              exists k, p, f :: 0 <= k < |input| && IsChannelFile(input[k].name) && input[k].posts.Some?
                && p in input[k].posts.value && f in Descriptors(p) && ResolveFile(cfg, f) == Some(x)
  {
    if |input| > 0 && !Unparsable(input[0]) {
      var out := EntryOutput(cfg, input[0]);
      var rest := FetchAttachments(cfg, input[1..]);
      assert FetchAttachments(cfg, input).out == out + rest.out;
      UploadsComeFromDescriptors(cfg, input[1..]);
      forall x | x in out + rest.out && !x.body.Copied?
        ensures exists k, p, f :: 0 <= k < |input| && IsChannelFile(input[k].name) && input[k].posts.Some?
                  && p in input[k].posts.value && f in Descriptors(p) && ResolveFile(cfg, f) == Some(x)
      {
        if x in out {
          assert x in out[1..] by {
            assert x == out[0] || x in out[1..];
          }
          assert IsChannelFile(input[0].name);
          ResolvePostsMembers(cfg, input[0].posts.value);
          var p, f :| p in input[0].posts.value && f in Descriptors(p) && ResolveFile(cfg, f) == Some(x);
        } else {
          assert x in rest.out;
          var k, p, f :| 0 <= k < |input[1..]| && IsChannelFile(input[1..][k].name) && input[1..][k].posts.Some?
                           && p in input[1..][k].posts.value && f in Descriptors(p) && ResolveFile(cfg, f) == Some(x);
          assert input[1..][k] == input[k + 1];
        }
      }
    }
  }

  /**
   In a finished run every descriptor, not skipped, of a post of a channel
   file has its entry in the output.
   */
  lemma {:induction false} DescriptorsGetEntries(cfg: Config, input: seq<InEntry>)
    requires FetchAttachments(cfg, input).Finished?
    ensures forall k, p, f ::
              (0 <= k < |input| && IsChannelFile(input[k].name) && input[k].posts.Some?
               && p in input[k].posts.value && f in Descriptors(p) && ResolveFile(cfg, f).Some?)
              ==> ResolveFile(cfg, f).value in FetchAttachments(cfg, input).out
  {
    if |input| > 0 {
      assert !Unparsable(input[0]);
      var out := EntryOutput(cfg, input[0]);
      var rest := FetchAttachments(cfg, input[1..]);
      assert FetchAttachments(cfg, input).out == out + rest.out;
      DescriptorsGetEntries(cfg, input[1..]);
      forall k, p, f | 0 <= k < |input| && IsChannelFile(input[k].name) && input[k].posts.Some?
                       && p in input[k].posts.value && f in Descriptors(p) && ResolveFile(cfg, f).Some?
        ensures ResolveFile(cfg, f).value in out + rest.out
      {
        if k == 0 {
          ResolvePostsMembers(cfg, input[0].posts.value);
          assert ResolveFile(cfg, f).value in out[1..];
        } else {
          assert input[1..][k - 1] == input[k];
          assert ResolveFile(cfg, f).value in rest.out;
        }
      }
    }
  }

  /** A run over two input slices is the first run followed by the second, once the first finishes. */
  lemma {:induction false} FetchAttachmentsAppend(cfg: Config, a: seq<InEntry>, b: seq<InEntry>)
    requires FetchAttachments(cfg, a).Finished?
    ensures FetchAttachments(cfg, a + b) == Prepend(FetchAttachments(cfg, a).out, FetchAttachments(cfg, b))
  {
    if |a| == 0 {
      assert a + b == b;
    } else {
      assert (a + b)[0] == a[0];
      assert (a + b)[1..] == a[1..] + b;
      FetchAttachmentsAppend(cfg, a[1..], b);
      var out := EntryOutput(cfg, a[0]);
      var ra := FetchAttachments(cfg, a[1..]);
      PrependPrepend(out, ra.out, FetchAttachments(cfg, b));
    }
  }

  lemma PrependPrepend(x: seq<OutEntry>, y: seq<OutEntry>, run: Run)
    ensures Prepend(x, Prepend(y, run)) == Prepend(x + y, run)
  {
    assert x + (y + run.out) == (x + y) + run.out;
  }

  /**
   The run aborts on the first unparsable channel file: it names that file,
   and the last entry written is that file's copy, after the complete output
   of every entry before it.
   */
  lemma {:induction false} AbortsAtFirstUnparsable(cfg: Config, input: seq<InEntry>, k: nat)
    requires k < |input| && Unparsable(input[k])
    requires forall j :: 0 <= j < k ==> !Unparsable(input[j])
    ensures FetchAttachments(cfg, input[..k]).Finished?
    ensures FetchAttachments(cfg, input)
         == Aborted(FetchAttachments(cfg, input[..k]).out + [Copy(input[k])], input[k].name)
  {
    PrefixFinishes(cfg, input, k);
    SplitAt(input, k);
    AbortAfter(cfg, input[..k], input[k..]);
  }

  lemma {:induction false} PrefixFinishes(cfg: Config, input: seq<InEntry>, k: nat)
    requires k <= |input|
    requires forall j :: 0 <= j < k ==> !Unparsable(input[j])
    ensures FetchAttachments(cfg, input[..k]).Finished?
  {
    assert forall j :: 0 <= j < k ==> input[..k][j] == input[j];
    FinishedIffAllParsable(cfg, input[..k]);
  }

  /** Cutting the input at k, stated apart so that the caller's context stays small. */
  lemma SplitAt(input: seq<InEntry>, k: nat)
    requires k < |input|
    ensures input == input[..k] + input[k..] && input[k..][0] == input[k]
  {
  }

  lemma {:induction false} AbortAfter(cfg: Config, pre: seq<InEntry>, post: seq<InEntry>)
    requires FetchAttachments(cfg, pre).Finished?
    requires |post| > 0 && Unparsable(post[0])
    ensures FetchAttachments(cfg, pre + post)
         == Aborted(FetchAttachments(cfg, pre).out + [Copy(post[0])], post[0].name)
  {
    FetchAttachmentsAppend(cfg, pre, post);
  }

  /** An aborted run has copied exactly the entries up to and including the culprit. */
  lemma {:induction false} AbortedCopies(cfg: Config, input: seq<InEntry>, k: nat)
    requires k < |input| && Unparsable(input[k])
    requires forall j :: 0 <= j < k ==> !Unparsable(input[j])
    ensures CopiedEntries(FetchAttachments(cfg, input).out) == Originals(input[..k + 1])
  {
    AbortsAtFirstUnparsable(cfg, input, k);
    var pre := input[..k];
    var out := FetchAttachments(cfg, pre).out;
    FinishedCopiesInput(cfg, pre);
    CopiedEntriesAppend(out, [Copy(input[k])]);
    assert CopiedEntries([Copy(input[k])]) == [Copy(input[k])];
    OriginalsPrefix(input, k);
  }

  lemma OriginalsPrefix(input: seq<InEntry>, k: nat)
    requires k < |input|
    ensures Originals(input[..k + 1]) == Originals(input[..k]) + [Copy(input[k])]
  {
    var a, b := Originals(input[..k + 1]), Originals(input[..k]) + [Copy(input[k])];
    assert |a| == |b|;
    forall i | 0 <= i < |a| ensures a[i] == b[i] {
      if i < k { assert a[i] == Copy(input[i]); } else { assert a[i] == Copy(input[k]); }
    }
  }
}

=== FILE: entries.dfy ===
/** Archive entries as the fetcher reads and writes them. */
module Entries {
  import opened Wrappers
  import opened Slack

  newtype byte = x: int | 0 <= x < 256

  /** Where the bytes of an output entry come from. */
  datatype Body =
    | Copied(data: seq<byte>)                                 // an input entry, copied verbatim
    | Downloaded(url: string, authorization: Option<string>)  // the body of a successful GET
    | LocalCopy(path: string)                                 // the contents of a local attachment
    | Empty                                                   // created, but nothing was written

  datatype OutEntry = OutEntry(name: string, body: Body)

  /**
   An input entry: its name, its bytes, and what decoding those bytes as a
   JSON list of posts gives (None when they are not such JSON).
   */
  datatype InEntry = InEntry(name: string, data: seq<byte>, posts: Option<seq<Post>>)

  /** The output entry an input entry is copied to. */
  function Copy(e: InEntry): (r: OutEntry)
    ensures r.name == e.name && r.body.Copied? && r.body.data == e.data
  {
    OutEntry(e.name, Copied(e.data))
  }

  /** The copied (non-synthetic) entries of an output sequence, in order. */
  function CopiedEntries(out: seq<OutEntry>): (r: seq<OutEntry>)
    ensures forall e :: e in r ==> e in out && e.body.Copied?
    ensures (forall e :: e in out ==> !e.body.Copied?) ==> r == []
  {
    if |out| == 0 then []
    else (if out[0].body.Copied? then [out[0]] else []) + CopiedEntries(out[1..])
  }

  lemma {:induction false} CopiedEntriesAppend(a: seq<OutEntry>, b: seq<OutEntry>)
    ensures CopiedEntries(a + b) == CopiedEntries(a) + CopiedEntries(b)
  {
    if |a| > 0 {
      assert (a + b)[1..] == a[1..] + b;
      CopiedEntriesAppend(a[1..], b);
    } else {
      assert a + b == b;
    }
  }

  /** Associativity of concatenation, stated apart so that callers with large contexts need not find it. */
  lemma AppendAssoc(x: seq<OutEntry>, y: seq<OutEntry>, z: seq<OutEntry>)
    ensures x + (y + z) == (x + y) + z
  {
  }

  /** The copies of a sequence of input entries, in order. */
  function Originals(input: seq<InEntry>): (r: seq<OutEntry>)
    ensures |r| == |input|
    ensures forall k :: 0 <= k < |input| ==> r[k] == Copy(input[k])
  {
    seq(|input|, k requires 0 <= k < |input| => Copy(input[k]))
  }
}

=== FILE: local.dfy ===
/**
 The lookup of a local attachment by identifier prefix
 (`findLocalAttachment`, cmd/fetch_attachments.go, lines 235-256).
 */
module LocalAttachments {
  import opened Wrappers
  import opened Paths

  /** A directory entry name as the operating system reports it: non-empty and without '/'. */
  type EntryName = s: string | s != "" && '/' !in s witness "a"

  datatype LookupError =
    | NotConfigured   // no local attachments directory was given
    | Unreadable      // the directory could not be listed
    | NoMatch         // no entry name starts with the identifier

  /** Index of the first entry name that starts with `id`. */
  function FirstMatch(names: seq<EntryName>, id: string): (r: Option<nat>)
    ensures r.Some? ==> r.value < |names| && HasPrefix(names[r.value], id)
    ensures r.Some? ==> forall j :: 0 <= j < r.value ==> !HasPrefix(names[j], id)
    ensures r.None? ==> forall j :: 0 <= j < |names| ==> !HasPrefix(names[j], id)
  {
    if |names| == 0 then None
    else if HasPrefix(names[0], id) then Some(0)
    else
      match FirstMatch(names[1..], id)
      case None => None
      case Some(k) => Some(k + 1)
  }

  /**
   `dir` joined with the first listed entry whose name starts with `id`;
   an error when no directory is configured, it cannot be listed, or no
   entry matches. `listing` is the directory's contents, None when reading
   it fails.
   */
  function FindLocalAttachment(id: string, dir: string, listing: Option<seq<EntryName>>): (r: Result<string, LookupError>)
    ensures dir == "" ==> r == Failure(NotConfigured)
    ensures dir != "" && listing.None? ==> r == Failure(Unreadable)
    ensures r.Success? <==>
              dir != "" && listing.Some? && exists k :: 0 <= k < |listing.value| && HasPrefix(listing.value[k], id)
    ensures r.Success? ==>
              exists k :: 0 <= k < |listing.value| && r.value == JoinPath(dir, listing.value[k])
                       && HasPrefix(listing.value[k], id)
                       && forall j :: 0 <= j < k ==> !HasPrefix(listing.value[j], id)
    ensures r.Success? ==> HasPrefix(Base(r.value), id)
  {
    if dir == "" then Failure(NotConfigured)
    else
      match listing
      case None => Failure(Unreadable)
      case Some(names) =>
        match FirstMatch(names, id)
        case None => Failure(NoMatch)
        case Some(k) =>
          BaseOfJoin(dir, names[k]);
          Success(JoinPath(dir, names[k]))
  }

  /** Lexicographic order on strings, by character code. */
  predicate LexLe(a: string, b: string)
  {
    |a| == 0 || (|b| > 0 && (a[0] < b[0] || (a[0] == b[0] && LexLe(a[1..], b[1..]))))
  }

  lemma {:induction false} LexLeReflexive(a: string)
    ensures LexLe(a, a)
  {
    if |a| > 0 {
      LexLeReflexive(a[1..]);
    }
  }

  /** A listing in ascending name order, as the directory reader returns it. */
  ghost predicate Sorted(names: seq<EntryName>)
  {
    forall i, j :: 0 <= i < j < |names| ==> LexLe(names[i], names[j])
  }

  /** On a sorted listing the first match is the least matching name, so the choice is deterministic. */
  lemma FirstMatchIsLeast(names: seq<EntryName>, id: string)
    requires Sorted(names)
    requires FirstMatch(names, id).Some?
    ensures forall j :: 0 <= j < |names| && HasPrefix(names[j], id) ==>
              LexLe(names[FirstMatch(names, id).value], names[j])
  {
    var k := FirstMatch(names, id).value;
    LexLeReflexive(names[k]);
  }

  /**
   The match is on the identifier alone, not "<id>-": with no file of its
   own, identifier "F1" takes the file of "F10".
   */
  lemma PrefixMatchExample(listing: seq<EntryName>)
    requires listing == ["F10-a.png"]
    ensures FindLocalAttachment("F1", "/d", Some(listing)) == Success(JoinPath("/d", "F10-a.png"))
  {
    var n: string := "F10-a.png";
    assert n[..2] == "F1";
    assert FirstMatch(listing, "F1") == Some(0);
  }
}

=== FILE: naming.dfy ===
/**
 Deriving an attachment's file name from the name of the local file that
 matched it (cmd/fetch_attachments.go, lines 144-156).
 */
module Naming {
  import opened Paths

  /** RE2's `[:space:]`: tab, newline, vertical tab, form feed, carriage return and space. */
  predicate IsSpace(c: char) {
    c == ' ' || '\t' <= c <= '\r'
  }

  /** RE2's `[:punct:]`: the ASCII punctuation characters `!` to `/`, `:` to `@`, `[` to the backquote, `{` to `~`. */
  predicate IsPunct(c: char) {
    '!' <= c <= '/' || ':' <= c <= '@' || '[' <= c <= '`' || '{' <= c <= '~'
  }

  /** A character the pattern `[[:space:][:punct:]]` matches. */
  predicate IsSpecial(c: char) {
    IsSpace(c) || IsPunct(c)
  }

  /**
   ReplaceAllString of `[[:space:][:punct:]]` by "_": each matching character
   is replaced on its own (the pattern has no `+`), every other character is
   kept, and the length does not change.
   */
  function Sanitize(s: string): (r: string)
    ensures |r| == |s|
    ensures forall i :: 0 <= i < |s| ==> r[i] == (if IsSpecial(s[i]) then '_' else s[i])
  {
    if |s| == 0 then ""
    else [if IsSpecial(s[0]) then '_' else s[0]] + Sanitize(s[1..])
  }

  /**
   Sanitizes the stem of a file name and keeps its extension verbatim: the
   length is kept, the extension is a suffix of the result, and every stem
   character is either kept or, when special, replaced by '_'.
   */
  function SanitizeStem(name: string): (r: string)
    ensures var e := Ext(name);
            && |r| == |name|
            && HasSuffix(r, e)
            && (forall i :: 0 <= i < |name| - |e| ==> r[i] == (if IsSpecial(name[i]) then '_' else name[i]))
    ensures forall i :: 0 <= i < |r| - |Ext(name)| ==> r[i] == '_' || !IsSpecial(r[i])
    ensures '/' !in r
  {
    var ext := Ext(name);
    var stem := TrimSuffix(name, ext);
    SanitizeThenAppend(stem, ext);
    Sanitize(stem) + ext
  }

  lemma SanitizeThenAppend(stem: string, ext: string)
    requires '/' !in ext
    ensures var r := Sanitize(stem) + ext;
            && HasSuffix(r, ext)
            && (forall i :: 0 <= i < |stem| ==> r[i] == (if IsSpecial(stem[i]) then '_' else stem[i]))
            && '/' !in r
  {
    var san := Sanitize(stem);
    var r := san + ext;
    assert r[|r| - |ext|..] == ext;
    forall i | 0 <= i < |stem|
      ensures r[i] == (if IsSpecial(stem[i]) then '_' else stem[i]) && r[i] != '/'
    {
      assert r[i] == san[i];
    }
    forall i | |stem| <= i < |r| ensures r[i] != '/' {
      assert r[i] == ext[i - |stem|];
    }
  }

  /**
   The name given to a descriptor without one: the base name of the local
   file, minus one leading "<id>-" (never more), with its stem sanitized.
   */
  function DeriveName(id: string, localPath: string): (r: string)
    ensures var b := Base(localPath);
            var n := if HasPrefix(b, id + "-") then b[|id| + 1..] else b;
            r == SanitizeStem(n)
    ensures '/' !in r
  {
    SanitizeStem(TrimPrefix(Base(localPath), id + "-"))
  }

  /** Sanitizing is idempotent: a sanitized stem is left as it is. */
  lemma SanitizeIdempotent(s: string)
    ensures Sanitize(Sanitize(s)) == Sanitize(s)
  {
    var t := Sanitize(s);
    assert forall i :: 0 <= i < |t| ==> Sanitize(t)[i] == t[i];
  }

  /**
   Appending an extension-shaped suffix to a '/'-free stem makes it the
   extension; the stem may hold dots of its own unless the suffix is empty.
   */
  lemma {:induction false} ExtAppend(stem: string, e: string)
    requires forall i :: 0 <= i < |stem| ==> stem[i] != '/'
    requires e == "" ==> forall i :: 0 <= i < |stem| ==> stem[i] != '.'
    requires e != "" ==> e[0] == '.' && forall k :: 1 <= k < |e| ==> e[k] != '.' && e[k] != '/'
    ensures Ext(stem + e) == e
    decreases |e|
  {
    if e == "" {
      assert stem + e == stem;
      ExtOfDotless(stem);
    } else if |e| == 1 {
      var p := stem + e;
      assert p[|p| - 1] == '.';
    } else {
      var init, c := e[..|e| - 1], e[|e| - 1];
      assert c != '.' && c != '/';
      assert (stem + e)[..|stem + e| - 1] == stem + init;
      assert (stem + e)[|stem + e| - 1] == c;
      ExtAppend(stem, init);
      assert init + [c] == e;
    }
  }

  lemma {:induction false} ExtOfDotless(s: string)
    requires forall i :: 0 <= i < |s| ==> s[i] != '.' && s[i] != '/'
    ensures Ext(s) == ""
    decreases |s|
  {
    if |s| > 0 {
      ExtOfDotless(s[..|s| - 1]);
    }
  }

  /** Sanitizing a stem keeps the extension of the name. */
  lemma SanitizeStemKeepsExtension(name: string)
    ensures Ext(SanitizeStem(name)) == Ext(name)
  {
    var ext := Ext(name);
    var san := Sanitize(TrimSuffix(name, ext));
    assert SanitizeStem(name) == san + ext;
    assert forall i :: 0 <= i < |san| ==> san[i] != '.' && san[i] != '/';
    ExtAppend(san, ext);
  }

  /** Sanitizing a stem twice is sanitizing it once. */
  lemma SanitizeStemIdempotent(name: string)
    ensures SanitizeStem(SanitizeStem(name)) == SanitizeStem(name)
  {
    var ext := Ext(name);
    var stem := TrimSuffix(name, ext);
    var r := SanitizeStem(name);
    assert r == Sanitize(stem) + ext;
    SanitizeStemKeepsExtension(name);
    assert TrimSuffix(r, ext) == Sanitize(stem);
    SanitizeIdempotent(stem);
  }

  /**
   Deriving is a fixpoint: a local file already carrying a derived name (and
   not starting with "<id>-") yields that same name again.
   */
  lemma DeriveNameFixpoint(id: string, localPath: string, dir: string)
    ensures var r := DeriveName(id, localPath);
            r != "" && !HasPrefix(r, id + "-") ==> DeriveName(id, JoinPath(dir, r)) == r
  {
    var r := DeriveName(id, localPath);
    if r != "" && !HasPrefix(r, id + "-") {
      BaseOfJoin(dir, r);
      SanitizeStemIdempotent(TrimPrefix(Base(localPath), id + "-"));
    }
  }

  /**
   The derived name of a local file "<id>-<stem><ext>" is the sanitized stem
   followed by the extension, where ext is the part from the last '.' on (or
   nothing, when the stem has no '.'); earlier dots belong to the stem and
   become '_'.
   */
  lemma DeriveNameOfPrefixed(id: string, dir: string, stem: string, ext: string)
    requires '/' !in id && '/' !in stem
    requires ext == "" ==> '.' !in stem
    requires ext != "" ==> ext[0] == '.' && forall k :: 1 <= k < |ext| ==> ext[k] != '.' && ext[k] != '/'
    ensures DeriveName(id, JoinPath(dir, id + "-" + (stem + ext))) == Sanitize(stem) + ext
  {
    var rest := stem + ext;
    var name := id + "-" + rest;
    var path := JoinPath(dir, name);
    assert Base(path) == id + "-" + rest by {
      NoSlashInPrefixed(id, stem, ext);
      BaseOfJoin(dir, name);
    }
    assert TrimPrefix(Base(path), id + "-") == rest by {
      TrimIdPrefix(id, rest);
    }
    assert SanitizeStem(rest) == Sanitize(stem) + ext by {
      SanitizeStemOf(stem, ext);
    }
    DeriveNameFrom(id, path, rest, Sanitize(stem) + ext);
  }

  lemma DeriveNameFrom(id: string, path: string, rest: string, r: string)
    requires TrimPrefix(Base(path), id + "-") == rest
    requires SanitizeStem(rest) == r
    ensures DeriveName(id, path) == r
  {
  }

  lemma TrimIdPrefix(id: string, rest: string)
    ensures TrimPrefix(id + "-" + rest, id + "-") == rest
  {
    var name := id + "-" + rest;
    assert name[..|id| + 1] == id + "-";
    assert name[|id| + 1..] == rest;
  }

  lemma SanitizeStemOf(stem: string, ext: string)
    requires '/' !in stem
    requires ext == "" ==> '.' !in stem
    requires ext != "" ==> ext[0] == '.' && forall k :: 1 <= k < |ext| ==> ext[k] != '.' && ext[k] != '/'
    ensures SanitizeStem(stem + ext) == Sanitize(stem) + ext
  {
    ExtAppend(stem, ext);
    assert TrimSuffix(stem + ext, ext) == stem;
  }

  lemma NoSlashInPrefixed(id: string, stem: string, ext: string)
    requires '/' !in id && '/' !in stem
    requires ext != "" ==> ext[0] == '.' && forall k :: 1 <= k < |ext| ==> ext[k] != '/'
    ensures '/' !in id + "-" + (stem + ext)
  {
    var name := id + "-" + (stem + ext);
    forall i | 0 <= i < |name| ensures name[i] != '/' {
      if i < |id| { assert name[i] == id[i]; }
      else if i == |id| { assert name[i] == '-'; }
      else if i < |id| + 1 + |stem| { assert name[i] == stem[i - |id| - 1]; }
      else { assert name[i] == ext[i - |id| - 1 - |stem|]; }
    }
  }

  /**
   Each special character of the stem becomes its own '_': runs are not
   collapsed, so "<id>-My File!!.png" gives "My_File__.png".
   */
  lemma DeriveNameExample(path: string)
    requires path == "/att/F1-My File!!.png"
    ensures DeriveName("F1", path) == "My_File__" + ".png"
  {
    var stem: string, ext: string := "My File!!", ".png";
    assert DeriveName("F1", path) == Sanitize(stem) + ext by {
      assert path == JoinPath("/att", "F1" + "-" + (stem + ext));
      assert '/' !in stem;
      DeriveNameOfPrefixed("F1", "/att", stem, ext);
    }
    SanitizeExample(stem, "My_File__");
  }

  /** Only one leading "<id>-" is removed: "F1-F1-a.txt" gives "F1_a.txt". */
  lemma DeriveNameStripsOnce(path: string)
    requires path == "/att/F1-F1-a.txt"
    ensures DeriveName("F1", path) == "F1_a" + ".txt"
  {
    var stem, ext := "F1-a", ".txt";
    var r := Sanitize(stem) + ext;
    assert DeriveName("F1", path) == r by {
      assert path == JoinPath("/att", "F1" + "-" + (stem + ext));
      assert '/' !in stem;
      DeriveNameOfPrefixed("F1", "/att", stem, ext);
    }
    SanitizeExample(stem, "F1_a");
  }

  /** Only the last '.' starts the extension: "F1-a.tar.gz" gives "a_tar.gz". */
  lemma DeriveNameMultiDot(path: string)
    requires path == "/att/F1-a.tar.gz"
    ensures DeriveName("F1", path) == "a_tar" + ".gz"
  {
    var stem, ext := "a.tar", ".gz";
    var r := Sanitize(stem) + ext;
    assert DeriveName("F1", path) == r by {
      assert path == JoinPath("/att", "F1" + "-" + (stem + ext));
      assert '/' !in stem;
      DeriveNameOfPrefixed("F1", "/att", stem, ext);
    }
    SanitizeExample(stem, "a_tar");
  }

  /** Sanitizing examples: each special character becomes its own '_'. */
  lemma SanitizeExample(s: string, t: string)
    requires (s, t) in {("My File!!", "My_File__"), ("F1-a", "F1_a"), ("a.tar", "a_tar")}
    ensures Sanitize(s) == t
  {
    assert |s| == |t|;
    forall i | 0 <= i < |s| ensures t[i] == (if IsSpecial(s[i]) then '_' else s[i]) {
    }
    SanitizeFrom(s, t);
  }

  lemma SanitizeFrom(s: string, t: string)
    requires |s| == |t|
    requires forall i :: 0 <= i < |s| ==> t[i] == (if IsSpecial(s[i]) then '_' else s[i])
    ensures Sanitize(s) == t
  {
  }
}

=== FILE: paths.dfy ===
/**
 The string and path helpers the attachment fetcher takes from Go's `strings`
 and `path/filepath` packages, written out over `seq<char>` with '/' as the only
 path separator (the Unix behaviour).
 */
module Paths {

  /** strings.HasPrefix */
  predicate HasPrefix(s: string, p: string) {
    |p| <= |s| && s[..|p|] == p
  }

  /** strings.HasSuffix */
  predicate HasSuffix(s: string, p: string) {
    |p| <= |s| && s[|s| - |p|..] == p
  }

  /** strings.TrimPrefix: removes `p` once when `s` starts with it. */
  function TrimPrefix(s: string, p: string): (r: string)
    ensures HasPrefix(s, p) ==> p + r == s
    ensures !HasPrefix(s, p) ==> r == s
  {
    if HasPrefix(s, p) then s[|p|..] else s
  }

  /** strings.TrimSuffix: removes `p` once when `s` ends with it. */
  function TrimSuffix(s: string, p: string): (r: string)
    ensures HasSuffix(s, p) ==> r + p == s
    ensures !HasSuffix(s, p) ==> r == s
  {
    if HasSuffix(s, p) then s[..|s| - |p|] else s
  }

  /** Number of occurrences of `c` in `s`. */
  function Count(s: string, c: char): nat
  {
    if |s| == 0 then 0 else (if s[0] == c then 1 else 0) + Count(s[1..], c)
  }

  /** strings.Join with a one-character separator. */
  function Join(parts: seq<string>, sep: char): string
    requires |parts| >= 1
  {
    if |parts| == 1 then parts[0] else parts[0] + [sep] + Join(parts[1..], sep)
  }

  /** strings.Split with a one-character separator. */
  function Split(s: string, sep: char): seq<string>
  {
    if |s| == 0 then [""]
    else
      var rest := Split(s[1..], sep);
      if s[0] == sep then [""] + rest
      else [[s[0]] + rest[0]] + rest[1..]
  }

  /**
   Splitting gives one more piece than there are separators (so the empty
   string gives one empty piece), no piece holds the separator, and joining
   the pieces back gives the input.
   */
  lemma {:induction false} SplitSpec(s: string, sep: char)
    ensures |Split(s, sep)| == Count(s, sep) + 1
    ensures forall k :: 0 <= k < |Split(s, sep)| ==> sep !in Split(s, sep)[k]
    ensures Join(Split(s, sep), sep) == s
  {
    if |s| > 0 {
      var rest := Split(s[1..], sep);
      SplitSpec(s[1..], sep);
      assert s == [s[0]] + s[1..];
      if s[0] == sep {
        assert ([""] + rest)[1..] == rest;
      } else {
        var r := [[s[0]] + rest[0]] + rest[1..];
        assert r[1..] == rest[1..];
        assert |rest| > 1 ==> Join(rest, sep) == rest[0] + [sep] + Join(rest[1..], sep);
        forall k | 0 <= k < |r| ensures sep !in r[k] {
          if k == 0 {
            assert forall c :: c in r[0] ==> c == s[0] || c in rest[0];
          } else {
            assert r[k] == rest[k];
          }
        }
      }
    }
  }

  lemma {:induction false} SplitNoSeparator(s: string, sep: char)
    requires sep !in s
    ensures Split(s, sep) == [s]
  {
    if |s| > 0 {
      assert sep !in s[1..];
      SplitNoSeparator(s[1..], sep);
      assert s == [s[0]] + s[1..];
    }
  }

  lemma {:induction false} SplitAfterPiece(a: string, sep: char, t: string)
    requires sep !in a
    ensures Split(a + [sep] + t, sep) == [a] + Split(t, sep)
  {
    if |a| == 0 {
      assert (a + [sep] + t)[1..] == t;
    } else {
      assert (a + [sep] + t)[1..] == a[1..] + [sep] + t;
      SplitAfterPiece(a[1..], sep, t);
      assert [a[0]] + a[1..] == a;
    }
  }

  /** Splitting undoes joining pieces that do not hold the separator. */
  lemma {:induction false} SplitJoin(parts: seq<string>, sep: char)
    requires |parts| >= 1
    requires forall k :: 0 <= k < |parts| ==> sep !in parts[k]
    ensures Split(Join(parts, sep), sep) == parts
  {
    if |parts| == 1 {
      SplitNoSeparator(parts[0], sep);
    } else {
      SplitJoin(parts[1..], sep);
      SplitAfterPiece(parts[0], sep, Join(parts[1..], sep));
      assert [parts[0]] + parts[1..] == parts;
    }
  }

  /** The text after the last '/' of `s` (all of `s` when it has none). */
  function LastElement(s: string): (r: string)
    ensures HasSuffix(s, r) && '/' !in r
    ensures |r| < |s| ==> s[|s| - |r| - 1] == '/'
  {
    if |s| == 0 || s[|s| - 1] == '/' then ""
    else
      var r := LastElement(s[..|s| - 1]) + [s[|s| - 1]];
      assert s[|s| - |r|..] == s[..|s| - 1][|s| - |r|..] + [s[|s| - 1]];
      r
  }

  /** `s` without its trailing '/' characters. */
  function StripTrailingSlashes(s: string): (r: string)
    ensures HasPrefix(s, r)
    ensures r == "" || r[|r| - 1] != '/'
    ensures forall k :: |r| <= k < |s| ==> s[k] == '/'
  {
    if |s| == 0 || s[|s| - 1] != '/' then s else StripTrailingSlashes(s[..|s| - 1])
  }

  /**
   filepath.Base: "." for the empty path, "/" for a path of slashes only, and
   otherwise the last element once trailing slashes are removed.
   */
  function Base(path: string): (r: string)
    ensures r != ""
    ensures path == "" ==> r == "."
    ensures path != "" && r != "/" ==> '/' !in r
  {
    if path == "" then "."
    else
      var t := StripTrailingSlashes(path);
      if t == "" then "/" else LastElement(t)
  }

  /**
   filepath.Join of a directory and one entry name. Join's lexical cleaning
   (collapsing "//", "." and "..") is not modelled.
   */
  function JoinPath(dir: string, name: string): (r: string)
    ensures HasSuffix(r, name) && |r| == |dir| + 1 + |name|
  {
    dir + "/" + name
  }

  lemma {:induction false} LastElementAfterSlash(d: string, name: string)
    requires '/' !in name
    ensures LastElement(d + "/" + name) == name
    decreases |name|
  {
    var s := d + "/" + name;
    if |name| == 0 {
      assert s[|s| - 1] == '/';
    } else {
      var init := name[..|name| - 1];
      assert '/' !in init by { assert forall c :: c in init ==> c in name; }
      assert s[..|s| - 1] == d + "/" + init;
      LastElementAfterSlash(d, init);
      assert init + [name[|name| - 1]] == name;
    }
  }

  /** The base name of a joined path is the entry name that was joined. */
  lemma BaseOfJoin(dir: string, name: string)
    requires name != "" && '/' !in name
    ensures Base(JoinPath(dir, name)) == name
  {
    var p := JoinPath(dir, name);
    assert p[|p| - 1] == name[|name| - 1];
    assert StripTrailingSlashes(p) == p;
    LastElementAfterSlash(dir, name);
  }

  /**
   filepath.Ext: the suffix starting at the last '.' of the final path
   element, or "" when that element has no '.'.
   */
  function Ext(path: string): (r: string)
    ensures HasSuffix(path, r)
    ensures r != "" ==> r[0] == '.' && forall k :: 1 <= k < |r| ==> r[k] != '.' && r[k] != '/'
  {
    if |path| == 0 || path[|path| - 1] == '/' then ""
    else
      var init, c := path[..|path| - 1], path[|path| - 1];
      if c == '.' then "."
      else
        var e := Ext(init);
        if e == "" then ""
        else
          SuffixSnoc(path, e);
          e + [c]
  }

  lemma SuffixSnoc(s: string, e: string)
    requires |s| > 0 && HasSuffix(s[..|s| - 1], e)
    ensures HasSuffix(s, e + [s[|s| - 1]])
  {
    var init := s[..|s| - 1];
    assert s == init + [s[|s| - 1]];
    assert s[|s| - |e| - 1..] == init[|init| - |e|..] + [s[|s| - 1]];
  }

  /** There is no extension exactly when the final path element has no '.'. */
  lemma {:induction false} ExtEmptyIff(path: string)
    ensures Ext(path) == "" <==> '.' !in LastElement(path)
    decreases |path|
  {
    if |path| > 0 && path[|path| - 1] != '/' {
      var init, c := path[..|path| - 1], path[|path| - 1];
      assert LastElement(path) == LastElement(init) + [c];
      ExtEmptyIff(init);
    }
  }
}

=== FILE: resolver.dfy ===
/**
 Resolution of a post's file descriptors into upload entries of the output
 archive (`processChannelFile`, cmd/fetch_attachments.go, lines 105-233).
 */
module Resolver {
  import opened Wrappers
  import opened Paths
  import opened Naming
  import opened Slack
  import opened LocalAttachments
  import opened Entries

  /** What issuing the GET request for one URL gives. */
  datatype Fetch =
    | Served       // status 200: the response body is copied into the entry
    | Failed       // a transport error or any other status
    | Unbuildable  // the request could not be built from the URL

  /**
   Everything the resolver takes from its surroundings: the API token, the
   local attachments directory ("" when not configured) and its listing (None
   when it cannot be read), the outcome of a GET for each URL (a URL not in
   `network` fails), and the local paths that cannot be opened or copied.
   */
  datatype Config = Config(
    token: string,
    localDir: string,
    listing: Option<seq<EntryName>>,
    network: map<string, Fetch>,
    unopenable: set<string>)

  const UploadsDir := "__uploads"

  /**
   The outcome of the GET for a URL. The empty URL builds a request but its
   execution always fails (there is no scheme), whatever `network` says.
   */
  function Outcome(cfg: Config, url: string): (r: Fetch)
    ensures url == "" ==> r == Failed
    ensures url != "" && url !in cfg.network ==> r == Failed
  {
    if url == "" then Failed
    else if url in cfg.network then cfg.network[url]
    else Failed
  }

  /** The local lookup of an identifier under the configured directory. */
  function Lookup(cfg: Config, id: string): Result<string, LookupError>
  {
    FindLocalAttachment(id, cfg.localDir, cfg.listing)
  }

  /** The first lookup is made only for a non-empty identifier and a configured directory. */
  predicate HasLocalMatch(cfg: Config, f: SlackFile)
  {
    |f.id| > 0 && cfg.localDir != "" && Lookup(cfg, f.id).Success?
  }

  /** The descriptor carries an identifier, a name and at least one URL. */
  predicate IsComplete(f: SlackFile)
  {
    |f.id| > 0 && |f.name| > 0 && (|f.urlPrivate| > 0 || |f.urlPrivateDownload| > 0)
  }

  /** The header sent with the request: a bearer token, when one is configured. */
  function Authorization(token: string): (r: Option<string>)
    ensures r.None? <==> token == ""
    ensures r.Some? ==> HasPrefix(r.value, "Bearer ") && r.value[7..] == token
  {
    if token != "" then Some("Bearer " + token) else None
  }

  /** The URL downloaded from: the download URL when it is set, the private URL otherwise. */
  function DownloadUrl(f: SlackFile): (r: string)
    ensures f.urlPrivateDownload != "" ==> r == f.urlPrivateDownload
    ensures f.urlPrivateDownload == "" ==> r == f.urlPrivate
    ensures r != "" <==> f.urlPrivate != "" || f.urlPrivateDownload != ""
  {
    if |f.urlPrivateDownload| > 0 then f.urlPrivateDownload else f.urlPrivate
  }

  /** The name of the upload entry for an identifier and a file name. */
  function UploadPath(id: string, name: string): (r: string)
    ensures HasPrefix(r, UploadsDir + "/")
    ensures '/' !in id && '/' !in name ==> Split(r, '/') == [UploadsDir, id, name]
  {
    var r := UploadsDir + "/" + id + "/" + name;
    if '/' !in id && '/' !in name then
      assert [UploadsDir, id, name][1..] == [id, name];
      assert Join([id, name], '/') == id + "/" + name;
      assert r == Join([UploadsDir, id, name], '/');
      SplitJoin([UploadsDir, id, name], '/');
      r
    else r
  }

  /** Different identifier/name pairs (without '/') never share an upload entry. */
  lemma UploadPathInjective(id1: string, name1: string, id2: string, name2: string)
    requires '/' !in id1 && '/' !in name1 && '/' !in id2 && '/' !in name2
    requires UploadPath(id1, name1) == UploadPath(id2, name2)
    ensures id1 == id2 && name1 == name2
  {
    assert Split(UploadPath(id1, name1), '/') == Split(UploadPath(id2, name2), '/');
  }

  /**
   The bytes written into an already created upload entry: the response body
   when the GET succeeds; when it fails, the local file found by a fresh
   lookup if it can be read; nothing when the request cannot be built, or
   when the download fails and no readable local file exists.
   */
  function Retrieve(cfg: Config, id: string, url: string): (b: Body)
    ensures !b.Copied?
    ensures b.Downloaded? <==> Outcome(cfg, url) == Served
    ensures b.Downloaded? ==> b.url == url && b.authorization == Authorization(cfg.token)
    ensures b.LocalCopy? <==>
              Outcome(cfg, url) == Failed && Lookup(cfg, id).Success? && Lookup(cfg, id).value !in cfg.unopenable
    ensures b.LocalCopy? ==> b.path == Lookup(cfg, id).value && HasPrefix(Base(b.path), id)
  {
    match Outcome(cfg, url)
    case Served => Downloaded(url, Authorization(cfg.token))
    case Unbuildable => Empty
    case Failed =>
      match Lookup(cfg, id)
      case Failure(_) => Empty
      case Success(path) => if path in cfg.unopenable then Empty else LocalCopy(path)
  }

  /**
   An archive entry name ending in '/': the zip writer makes it a directory
   entry, and every write of bytes into it fails, so it stays empty.
   */
  predicate IsDirectoryEntry(name: string)
  {
    |name| > 0 && name[|name| - 1] == '/'
  }

  /** An upload entry is a directory entry exactly when its name part is empty or ends in '/'. */
  lemma UploadPathIsDirectory(id: string, name: string)
    ensures IsDirectoryEntry(UploadPath(id, name)) <==> name == "" || name[|name| - 1] == '/'
  {
    var r := UploadPath(id, name);
    assert r == UploadsDir + "/" + id + "/" + name;
    if name == "" {
      assert r[|r| - 1] == '/';
    } else {
      assert r[|r| - 1] == name[|name| - 1];
    }
  }

  /**
   The upload entry one descriptor produces, or None when it is skipped.
   With a local match and no name, the name is derived from the local file.
   Without a local match an incomplete descriptor is skipped. Every other
   descriptor gets its entry, whatever the download then does; the entry's
   bytes are retrieved unless it is a directory entry, which stays empty.
   */
  function ResolveFile(cfg: Config, f: SlackFile): (r: Option<OutEntry>)
    ensures r.None? <==> !HasLocalMatch(cfg, f) && !IsComplete(f)
    ensures r.Some? ==> |f.id| > 0 && !r.value.body.Copied?
    ensures r.Some? && f.name != "" ==> r.value.name == UploadPath(f.id, f.name)
    ensures r.Some? && f.name == "" ==>
              HasLocalMatch(cfg, f) && r.value.name == UploadPath(f.id, DeriveName(f.id, Lookup(cfg, f.id).value))
    ensures r.Some? && IsDirectoryEntry(r.value.name) ==> r.value.body == Empty
    ensures r.Some? && !IsDirectoryEntry(r.value.name) ==> r.value.body == Retrieve(cfg, f.id, DownloadUrl(f))
  {
    var local := if |f.id| > 0 && cfg.localDir != "" then Lookup(cfg, f.id) else Failure(NotConfigured);
    var localPath := if local.Success? then local.value else "";
    var name := if local.Success? && |f.name| < 1 then DeriveName(f.id, localPath) else f.name;
    if localPath == "" && (|f.id| < 1 || |name| < 1 || !(|f.urlPrivate| > 0 || |f.urlPrivateDownload| > 0)) then
      None
    else
      var path := UploadPath(f.id, name);
      Some(OutEntry(path, if IsDirectoryEntry(path) then Empty else Retrieve(cfg, f.id, DownloadUrl(f))))
  }

  /** The upload entries of a sequence of descriptors, in order. */
  function ResolveFiles(cfg: Config, fs: seq<SlackFile>): (r: seq<OutEntry>)
    ensures |r| <= |fs|
    ensures forall e :: e in r ==> HasPrefix(e.name, UploadsDir + "/") && !e.body.Copied?
  {
    if |fs| == 0 then []
    else
      var rest := ResolveFiles(cfg, fs[1..]);
      match ResolveFile(cfg, fs[0])
      case None => rest
      case Some(e) => [e] + rest
  }

  /**
   The entries of a descriptor sequence are exactly the entries of its
   descriptors that are not skipped.
   */
  lemma {:induction false} ResolveFilesMembers(cfg: Config, fs: seq<SlackFile>)
    ensures forall e :: e in ResolveFiles(cfg, fs) ==> exists f :: f in fs && ResolveFile(cfg, f) == Some(e)
    ensures forall f :: f in fs && ResolveFile(cfg, f).Some? ==> ResolveFile(cfg, f).value in ResolveFiles(cfg, fs)
  {
    if |fs| > 0 {
      ResolveFilesMembers(cfg, fs[1..]);
      var r, rest := ResolveFiles(cfg, fs), ResolveFiles(cfg, fs[1..]);
      var head := ResolveFile(cfg, fs[0]);
      assert r == (if head.Some? then [head.value] else []) + rest;
      forall e | e in r
        ensures exists f :: f in fs && ResolveFile(cfg, f) == Some(e)
      {
        if head.Some? && e == head.value {
          assert fs[0] in fs;
        } else {
          assert e in rest;
          var f :| f in fs[1..] && ResolveFile(cfg, f) == Some(e);
          assert f in fs;
        }
      }
      forall f | f in fs && ResolveFile(cfg, f).Some?
        ensures ResolveFile(cfg, f).value in r
      {
        if f != fs[0] {
          assert f in fs[1..];
        }
      }
    }
  }

  lemma {:induction false} ResolveFilesAppend(cfg: Config, a: seq<SlackFile>, b: seq<SlackFile>)
    ensures ResolveFiles(cfg, a + b) == ResolveFiles(cfg, a) + ResolveFiles(cfg, b)
  {
    if |a| == 0 {
      assert a + b == b;
    } else {
      assert (a + b)[0] == a[0];
      assert (a + b)[1..] == a[1..] + b;
      ResolveFilesAppend(cfg, a[1..], b);
    }
  }

  /** The upload entries of one post. */
  function ResolvePost(cfg: Config, p: Post): seq<OutEntry>
  {
    ResolveFiles(cfg, Descriptors(p))
  }

  /**
   A skipped post and a post without files give no entry; a file_share post
   gives the entries of its one descriptor.
   */
  lemma ResolvePostCases(cfg: Config, p: Post)
    ensures Normalize(p).None? ==> ResolvePost(cfg, p) == []
    ensures Normalize(p).Some? && Normalize(p).value.files.None? ==> ResolvePost(cfg, p) == []
    ensures p.subtype == FileShare && p.file.Some? ==> ResolvePost(cfg, p) == ResolveFiles(cfg, [p.file.value])
  {
  }

  /** The upload entries of a channel file's posts, post by post in order. */
  function ResolvePosts(cfg: Config, posts: seq<Post>): seq<OutEntry>
  {
    if |posts| == 0 then [] else ResolvePost(cfg, posts[0]) + ResolvePosts(cfg, posts[1..])
  }

  /** Every entry a channel file's posts add is an upload, never a copy. */
  lemma {:induction false} ResolvePostsAreUploads(cfg: Config, posts: seq<Post>)
    ensures forall e :: e in ResolvePosts(cfg, posts) ==> HasPrefix(e.name, UploadsDir + "/") && !e.body.Copied?
  {
    if |posts| > 0 {
      ResolvePostsAreUploads(cfg, posts[1..]);
      var x, y := ResolvePost(cfg, posts[0]), ResolvePosts(cfg, posts[1..]);
      assert forall e :: e in x + y ==> e in x || e in y;
    }
  }

  /**
   The entries of a channel file's posts are exactly the entries of the
   descriptors of those posts that are not skipped.
   */
  lemma {:induction false} ResolvePostsMembers(cfg: Config, posts: seq<Post>)
    ensures forall e :: e in ResolvePosts(cfg, posts) ==>
              exists p, f :: p in posts && f in Descriptors(p) && ResolveFile(cfg, f) == Some(e)
    ensures forall p, f :: p in posts && f in Descriptors(p) && ResolveFile(cfg, f).Some? ==>
              ResolveFile(cfg, f).value in ResolvePosts(cfg, posts)
  {
    if |posts| > 0 {
      var head, tail := posts[0], posts[1..];
      var x, y := ResolvePost(cfg, head), ResolvePosts(cfg, tail);
      assert ResolvePosts(cfg, posts) == x + y;
      ResolveFilesMembers(cfg, Descriptors(head));
      ResolvePostsMembers(cfg, tail);
      forall e | e in x + y
        ensures exists p, f :: p in posts && f in Descriptors(p) && ResolveFile(cfg, f) == Some(e)
      {
        if e in x {
          var f :| f in Descriptors(head) && ResolveFile(cfg, f) == Some(e);
          assert head in posts;
        } else {
          assert e in y;
          var p, f :| p in tail && f in Descriptors(p) && ResolveFile(cfg, f) == Some(e);
          assert p in posts;
        }
      }
      forall p, f | p in posts && f in Descriptors(p) && ResolveFile(cfg, f).Some?
        ensures ResolveFile(cfg, f).value in x + y
      {
        if p == head {
          assert ResolveFile(cfg, f).value in x;
        } else {
          assert p in tail;
          assert ResolveFile(cfg, f).value in y;
        }
      }
    }
  }

  lemma {:induction false} ResolvePostsAppend(cfg: Config, a: seq<Post>, b: seq<Post>)
    ensures ResolvePosts(cfg, a + b) == ResolvePosts(cfg, a) + ResolvePosts(cfg, b)
  {
    if |a| == 0 {
      assert a + b == b;
    } else {
      assert (a + b)[0] == a[0];
      assert (a + b)[1..] == a[1..] + b;
      ResolvePostsAppend(cfg, a[1..], b);
      var x, y, z := ResolvePost(cfg, a[0]), ResolvePosts(cfg, a[1..]), ResolvePosts(cfg, b);
      assert ResolvePosts(cfg, a + b) == x + (y + z);
      assert ResolvePosts(cfg, a) == x + y;
      AppendAssoc(x, y, z);
    }
  }

  /**
   Whether a descriptor gets an entry, and that entry's name, do not depend
   on the token, the network or the local files' readability: the entry is
   created before the download is attempted.
   */
  lemma EntryIndependentOfDownload(cfg: Config, f: SlackFile, token: string, network: map<string, Fetch>, unopenable: set<string>)
    ensures var cfg' := cfg.(token := token, network := network, unopenable := unopenable);
            && ResolveFile(cfg', f).Some? == ResolveFile(cfg, f).Some?
            && (ResolveFile(cfg, f).Some? ==> ResolveFile(cfg', f).value.name == ResolveFile(cfg, f).value.name)
  {
  }

  /**
   A failed download falls back to the same local file the first lookup
   found (unless the entry is a directory entry, which stays empty).
   */
  lemma FallbackUsesFirstMatch(cfg: Config, f: SlackFile)
    ensures HasLocalMatch(cfg, f) && Outcome(cfg, DownloadUrl(f)) == Failed && Lookup(cfg, f.id).value !in cfg.unopenable
            ==> && ResolveFile(cfg, f).Some?
                && ResolveFile(cfg, f).value.body
                   == (if IsDirectoryEntry(ResolveFile(cfg, f).value.name) then Empty else LocalCopy(Lookup(cfg, f.id).value))
  {
  }

  /**
   A descriptor without URLs but with a local match is not skipped: it gets
   its entry, whose bytes are those of the matched local file when that file
   opens (and the entry is not a directory entry), and nothing otherwise.
   */
  lemma LocalOnlyDescriptor(cfg: Config, f: SlackFile)
    ensures HasLocalMatch(cfg, f) && f.urlPrivate == "" && f.urlPrivateDownload == "" ==>
              && ResolveFile(cfg, f).Some?
              && ResolveFile(cfg, f).value.body
                 == (if Lookup(cfg, f.id).value in cfg.unopenable || IsDirectoryEntry(ResolveFile(cfg, f).value.name)
                     then Empty else LocalCopy(Lookup(cfg, f.id).value))
  {
    if HasLocalMatch(cfg, f) && f.urlPrivate == "" && f.urlPrivateDownload == "" {
      assert DownloadUrl(f) == "";
    }
  }

  /**
   A local file named exactly "<id>-" derives the empty name: the entry
   "__uploads/<id>/" is still written, as a directory entry with no bytes.
   */
  lemma EmptyDerivedName(cfg: Config, f: SlackFile)
    ensures HasLocalMatch(cfg, f) && f.name == "" && DeriveName(f.id, Lookup(cfg, f.id).value) == "" ==>
              ResolveFile(cfg, f) == Some(OutEntry(UploadsDir + "/" + f.id + "/", Empty))
  {
    if HasLocalMatch(cfg, f) && f.name == "" && DeriveName(f.id, Lookup(cfg, f.id).value) == "" {
      var r := ResolveFile(cfg, f);
      var u := UploadsDir + "/" + f.id + "/";
      assert r.Some? && r.value.name == UploadPath(f.id, "");
      assert UploadPath(f.id, "") == u by {
        assert u + "" == u;
      }
      UploadPathIsDirectory(f.id, "");
      assert r.value == OutEntry(u, Empty);
    }
  }

  /**
   A descriptor without a local match that lacks a name (or an identifier,
   or both URLs) is skipped: no name is ever made up from its URL.
   */
  lemma SkippedWithoutLocalMatch(cfg: Config, f: SlackFile)
    requires !HasLocalMatch(cfg, f)
    requires f.id == "" || f.name == "" || (f.urlPrivate == "" && f.urlPrivateDownload == "")
    ensures ResolveFile(cfg, f) == None
  {
  }

  /**
   Without a configured directory, a descriptor lacking a name (or an
   identifier, or both URLs) is skipped: no name is ever made up from its URL.
   */
  lemma SkippedWithoutLocalDir(cfg: Config, f: SlackFile)
    requires cfg.localDir == ""
    requires f.id == "" || f.name == "" || (f.urlPrivate == "" && f.urlPrivateDownload == "")
    ensures ResolveFile(cfg, f) == None
  {
    SkippedWithoutLocalMatch(cfg, f);
  }
}

=== FILE: slack.dfy ===
/**
 The parsed shape of a channel file's posts and the normalisation of legacy
 `file_share` posts (cmd/fetch_attachments.go, lines 115-131).
 */
module Slack {
  import opened Wrappers

  /** One file descriptor of a post; every field is "" when absent from the JSON. */
  datatype SlackFile = SlackFile(
    id: string,
    name: string,
    urlPrivate: string,
    urlPrivateDownload: string)

  /** One post: `file` is the legacy single descriptor, `files` the list (None for a nil slice). */
  datatype Post = Post(
    ts: string,
    subtype: string,
    file: Option<SlackFile>,
    files: Option<seq<SlackFile>>)

  const FileShare := "file_share"

  /**
   The post as the descriptor loop sees it, or None when it is skipped: a
   `file_share` post without `file` is skipped; with one, its `files` becomes
   exactly that one descriptor, whatever it held; any other post is untouched.
   */
  function Normalize(p: Post): (r: Option<Post>)
    ensures r.None? <==> p.subtype == FileShare && p.file.None?
    ensures r.Some? ==> r.value == p.(files := r.value.files)
    ensures r.Some? && p.subtype == FileShare ==> r.value.files == Some([p.file.value])
    ensures p.subtype != FileShare ==> r == Some(p)
  {
    if p.subtype == FileShare then
      match p.file
      case None => None
      case Some(f) => Some(p.(files := Some([f])))
    else Some(p)
  }

  /** The descriptors whose resolution the post triggers, in order. */
  function Descriptors(p: Post): seq<SlackFile>
  {
    match Normalize(p)
    case None => []
    case Some(q) => if q.files.Some? then q.files.value else []
  }

  /** Normalising a normalised post changes nothing. */
  lemma NormalizeIdempotent(p: Post)
    requires Normalize(p).Some?
    ensures Normalize(Normalize(p).value) == Normalize(p)
  {
  }

  /** A legacy share post resolves exactly its one descriptor, whatever its `files` held. */
  lemma LegacyShareDescriptors(p: Post, other: Option<seq<SlackFile>>)
    requires p.subtype == FileShare && p.file.Some?
    ensures Descriptors(p) == [p.file.value]
    ensures Descriptors(p.(files := other)) == Descriptors(p)
  {
  }
}

=== FILE: wrappers.dfy ===
/** Failure-carrying values shared by the rest of the model. */
module Wrappers {

  /** A value that may be absent: Go's nil pointer or nil slice. */
  datatype Option<+T> = None | Some(value: T)

  /** A value or the error that replaced it: Go's `(T, error)` return pair. */
  datatype Result<+T, +E> = Success(value: T) | Failure(error: E)
}
